=== FILE: README.md ===
# Closed-Book: a Dafny model of the session logic

Closed-Book is a Streamlit application: a registered user uploads PDF, TXT and DOCX
files, ticks which of them to consult, and asks questions or runs two canned tasks
(a contradiction check and a summary). Each query is answered by a LlamaIndex index
over the ticked files, and each chat is kept as a JSON file. Almost all of `app/main.py`
is UI, authentication, file I/O and library glue. This project models the logic that
sits inside that glue, with every piece of I/O passed in as a value:

- **Chat store** (`chat_store.dfy`, module `ChatStore`). The title `save_chat` derives
  from the first user message. The JSON record it writes. The listing `list_chats`
  builds from a directory listing, given as a sequence of entries that each carry the
  parsed file content or the mark that the file could not be read.
- **Registration** (`registration.dfy`, module `Registration`). The ordered validation
  of the sign-up form, and the insertion of the new user into the credential map. The
  map is the field of a class because the source updates it in place. The password
  hasher is a parameter.
- **Documents** (`documents.dfy`, module `Documents`). The extension allow-list for the
  file listing. The checkbox selection loop. POSIX `os.path.join`. The `MetadataFilters`
  value that scopes queries to the selection, and which chunks it admits. The
  empty-input guard and persist rule of `get_index`, with the refresh as an oracle.
- **Session** (`session.dfy`, module `Session`). `st.session_state` as a class with the
  transcript, the chat id, the `is_processing` flag, the pending task prompt and the
  chat-history directory. Each button press or chat submission is a method. The query
  engine's answer, or its failure, is a parameter. The streaming loop joins the
  fragments in order.
- Helpers: `text.dfy` (module `Text`) holds Python string operations: `endswith`,
  `replace(".json", "")`, ASCII `lower`/`isalnum`, and string ordering with its
  total-order lemmas. `seqs.dfy` (module `Seqs`) holds the order-preserving filter
  behind every list comprehension. `common.dfy` holds `Option`.

The main invariant of the session is `SessionState.Valid()`: the processing flag is set
exactly while a canned-task prompt is pending. Every transition keeps it. A canned task
is refused while the flag is set or when there is no filter. The chat input is ignored
while the flag is set.

Behaviour of the code that the model keeps as written:

- A failed query does not roll the transcript back. A chat stream that raises leaves
  the user's prompt appended, with no answer and no save (`SessionState.SubmitChat`).
  A canned task whose query raises stays pending with the flag set, so the next run
  retries it (`SessionState.ProcessPending`).
- The title is the first 15 characters of the first user message, followed by "..."
  when the message is longer (`ChatStore.Truncate`).
- While a task is processing, the file uploader, the file checkboxes, the file delete
  buttons, the rebuild button, the new-chat button and the two canned-task buttons are
  disabled, and the chat input is not shown. The logout button and the chat-history
  buttons (open and delete) stay enabled, so the model allows opening and deleting a
  chat in every state.

## Model

| member | source | states |
|---|---|---|
| `ChatStore.Truncate` | app/main.py:126 | A message of at most 15 characters is kept whole. A longer one becomes its first 15 characters followed by "..." (18 characters). |
| `ChatStore.FirstUserMessage` | app/main.py:124-127 | None exactly when no message has role "user". Otherwise the index of a "user" message with no "user" message before it. |
| `ChatStore.Title` | app/main.py:123-127 | The title is the chat id when no message is from the user. Otherwise it is the truncated content of the first user message. |
| `ChatStore.SaveChat` | app/main.py:122-130 | The loop that stops at the first user message yields `Title`. The file is `<chat_id>.json`. The record carries the messages and the selected files unchanged. |
| `ChatStore.ReopenRoundTrip` | app/main.py:257-259 | Reading `data["messages"]` back from a saved record gives exactly the saved messages. |
| `ChatStore.MessagesRoundTrip` | app/main.py:130 | Decoding the JSON list written for a transcript gives the transcript back. |
| `ChatStore.ChatIdDropsEveryOccurrence` | app/main.py:139 | The id removes every ".json" in the name, not only the suffix: for every id without ".json", the file `id + ".json.json"` is listed under `id`. |
| `ChatStore.ListedTitle` | app/main.py:143 | A dict with a "title" key gives that value, whatever its JSON type. Any other content gives the id as a string. |
| `ChatStore.CollectMembers` | app/main.py:137-146 | A row is produced exactly when some entry's name ends in ".json" and its content parsed. The row is that entry's id and title. Unreadable or unparsable files give no row. |
| `ChatStore.CollectSnoc` | app/main.py:137-146 | Scanning one more directory entry appends its row exactly when it is a readable ".json" file. |
| `ChatStore.SortByIdDesc` | app/main.py:147 | The rows are ordered by id, never increasing (Python string order), and are a permutation of the input. |
| `ChatStore.InsertById` | app/main.py:147 | Inserting a row into a descending sequence keeps it descending and adds exactly that row. |
| `ChatStore.ListChats` | app/main.py:132-147 | No rows when the directory is missing. Otherwise the rows of the readable ".json" files, sorted by id descending, as a permutation of the collected rows. |
| `ChatStore.SavedChatListed` | app/main.py:129-143 | A chat saved under an id that contains no ".json" is listed under that same id, with the title it was saved with. |
| `Text.RemoveAll` | app/main.py:139 | `replace(pat, "")` never lengthens the string and leaves a string without `pat` unchanged. |
| `Text.RemoveAllAround` | app/main.py:139 | `replace(".json", "")` on `s + ".json" + t` is the removal on `s` followed by the removal on `t`, for all `s` and `t`. |
| `Text.RemoveAllAppended` | app/main.py:139 | Removing ".json" from `id + ".json"` gives back `id` when `id` contains no ".json". |
| `Text.AtMostTransitive` | app/main.py:147 | String order (`<=`) is transitive. It rests on the asymmetry, transitivity and totality lemmas of `Text.Less`. |
| `Registration.Validate` | app/main.py:58-67 | Accepted exactly when all hold: the username is alphanumeric, the email has "@" and ".", the password is non-empty and equals its confirmation, and the username is new. The first failing check wins. An empty username is always refused as not alphanumeric. The fill-all-fields error occurs exactly for an empty password. |
| `Registration.Registered` | app/main.py:70-76 | On acceptance, exactly one new key (the username) is added, mapped to {email, name = username, password = hash(password)}, and every existing entry is unchanged. On any rejection the map is unchanged. |
| `Registration.CredentialStore.Register` | app/main.py:56-76 | The verdict is `Validate` of the form against the map before the call. The map afterwards is `Registered` of the old map. |
| `Registration.CredentialStore.constructor` | app/main.py:25-29 | The store starts as the credential map loaded from the configuration. |
| `Seqs.Filter` | app/main.py:223 | A comprehension's result is a subsequence of its input: the same order, nothing added. |
| `Seqs.FilterCounts` | app/main.py:223 | Every occurrence of an element that passes is kept. Every element that fails is dropped. |
| `Documents.ListFiles` | app/main.py:222-223 | The listed files are exactly the directory names whose lower-cased form ends in ".pdf", ".txt" or ".docx", in directory order. |
| `Documents.UpperCaseExtensionListed` | app/main.py:223 | Names ending in ".PDF", ".TXT" or ".DOCX" are listed: the suffix test ignores case. |
| `Documents.SelectFiles` | app/main.py:226-230 | The selection is the order-preserving subsequence of the listed files whose checkbox (`check_<f>`, ticked by default) is ticked. |
| `Documents.PathJoin` | app/main.py:275 | `os.path.join(a, b)` ends with `b`. An absolute `b` replaces `a`. For a relative or empty `b` (every `f` listed from the data directory), the result starts with `a`, then has one "/" exactly when `a` is non-empty and does not already end in "/", then `b`. |
| `Documents.ScopeFilter` | app/main.py:272-282 | No filter exactly when nothing is selected. Otherwise one exact-match clause per selected file, in selection order, with key "file_path" and value `join(DATA_DIR, f)`, under condition "or". |
| `Documents.ScopeAdmitsExactlySelected` | app/main.py:273-279 | Under the filter of a non-empty selection, a chunk is admitted exactly when its "file_path" is the joined path of a selected file. |
| `Documents.IndexedPathsAdmitted` | app/main.py:270-279 | For a non-empty selection, the query's filter admits a chunk exactly when its "file_path" is one of the paths `get_index` loaded and refreshed for that same selection (`InputFiles`, line 159). |
| `Documents.GetIndex` | app/main.py:150-166 | No index exactly for an empty file list. Otherwise the refresh sees `InputFiles` of the list, and the index is persisted exactly when some refresh result is true. |
| `Documents.UnchangedRefreshSkipsPersist` | app/main.py:163-164 | When the refresh of the selection's joined paths reports no changed document, storage is not rewritten. |
| `Documents.IndexImpliesScope` | app/main.py:269-283 | Whenever `get_index` yields an index for the selection, the selection also yields a filter, so the chat query never runs unscoped. |
| `Session.ConcatAppend` | app/main.py:339-341 | Joining fragments is in order: the join of two runs of fragments is the join of the first followed by the join of the second. |
| `Session.Accumulate` | app/main.py:338-342 | The loop `full_res += text` ends with all fragments joined in order. |
| `Session.SessionState.constructor` | app/main.py:169-176 | A session starts with no messages, the given chat id, the flag false, no pending prompt and the given history directory. |
| `Session.SessionState.Save` | app/main.py:322 | The chat file `<chat_id>.json` is replaced by the JSON of the record `save_chat` builds. No other file changes. |
| `Session.SessionState.StartTask` | app/main.py:291-309 | Accepted exactly when not processing and the selection gives a filter, that is, exactly when not processing and some file is selected. It then sets the flag and the task's prompt and appends one user message with the task's label. Otherwise nothing changes. |
| `Session.SessionState.ProcessPending` | app/main.py:269-326 | Given the index `get_index` built for the same selection: with a task pending and an index, the task's prompt is queried with top-k 10 under the selection's filter, which always exists then. On an answer, exactly one assistant message is appended, the chat is saved, and the flag and prompt are cleared. On failure nothing changes. |
| `Session.SessionState.SubmitChat` | app/main.py:328-345 | Acted on exactly when not processing, with an index for the selection and a non-empty prompt. The query is streamed with top-k 5 under the selection's filter, which always exists then. A complete stream appends the user message and then one assistant message holding the fragments joined in order, and saves the chat. A failed stream leaves only the user message. Flag and prompt never change. |
| `Session.SessionState.NewChat` | app/main.py:249-252 | When not processing: a new chat id and an empty transcript. Otherwise nothing changes. |
| `Session.SessionState.OpenChat` | app/main.py:256-261 | The file `<id>.json` of the history directory is read. When it parsed and holds a message list, the transcript becomes those messages and the chat id becomes `id`. Anything else changes nothing. The flag, the prompt and the directory are untouched in both cases. |
| `Session.SaveThenReopen` | app/main.py:122-130 | Saving the current chat writes `<chat_id>.json` as `save_chat` does, and afterwards the history file of the current chat parses and its stored messages are exactly the transcript. Opening it then succeeds and leaves the transcript and the id as they were, with the flag and prompt untouched. |
| `Session.SessionState.Rebuild` | app/main.py:239-245 | When not processing, the rebuild empties the chat-history directory, because it sits inside the storage directory that is removed and recreated. The transcript, the flag and the prompt are untouched. While processing, nothing changes. |
| `Session.SessionState.DeleteChat` | app/main.py:262-264 | The chat's file is removed from the history directory and nothing else changes. |

## Left out

- Streamlit rendering and control flow: tabs, sidebar, columns, spinners, status boxes, `st.rerun`/`st.stop` and the embedded JavaScript reload. Each button press or chat submission is a method call instead. A disabled button is a press that changes nothing.
- Login, logout and cookies are library calls of `streamlit_authenticator`. `stauth.Hasher.hash` is a parameter `hash: string -> string`.
- The email lookup after login (lines 103-106) and the directory constants. `DATA_DIR` is a parameter of the functions that use it.
- File and YAML I/O: reading and writing `config.yaml` (the dump after registration), `json.dump`/`json.load`, `os.listdir`, `os.makedirs` and `os.remove`. Their contents are passed in as values: the credential map, the directory listing with parsed contents, and the history directory as a map from file name to what reading it gives (unreadable, or parsed JSON).
- File upload (lines 194-218), deleting a data file with its `:Zone.Identifier` sidecar (lines 231-237), and the removal of the stored index by the rebuild (lines 239-245) are pure filesystem effects. The rebuild's effect on the saved chats is modelled (`SessionState.Rebuild`).
- LlamaIndex and Ollama internals: `load_index_from_storage`, `SimpleDirectoryReader`, `refresh_ref_docs`, embeddings, similarity ranking and query engines are unseen library code with network inference. The loader plus refresh is an oracle from paths to booleans. A query is recorded as the request it makes (prompt, filter, top-k, streaming), and its answer or failure is a parameter.
- The `@st.cache_resource` memoisation of `get_index` is framework behaviour.
- Chat ids come from the clock (`datetime.now().strftime`) and are given strings here.
- Text.IsAlnum: restricted to ASCII letters and digits. Python's `str.isalnum` also accepts non-ASCII letters and digits (for example Japanese), so such usernames are refused by the model but accepted by the source.
- Text.Lower: lower-cases ASCII only. This does not change which names are listed, because no non-ASCII character lower-cases to a letter of "pdf", "txt" or "docx".
- ChatStore.Json: numbers are integers. Floating-point JSON numbers are not represented.
- ChatStore.SortByIdDesc: does not state stability. The insertion places a row before equal ids, as Python's stable `sorted(..., reverse=True)` keeps them, but no lemma proves it.
- Session.SessionState.OpenChat: reopens only a "messages" value that is a list of objects with string "role" and "content", and keeps only those two fields of each message. The source keeps the loaded value as it is (line 259): a message with other keys, or with non-string content, is shown and saved back unchanged by the next `save_chat`. A non-string content of the first user message can fail only when the title is computed (line 126). Other shapes fail when they are rendered or saved. The model leaves the session unchanged for every such file.

=== FILE: chat_store.dfy ===
/**
 * The chat-history store: the title a saved chat gets (`save_chat`), the JSON
 * record written for it, and the listing of saved chats (`list_chats`).
 * Files are values here: a directory listing is a sequence of entries, each
 * with the parsed content of its file or the mark that it could not be read.
 */
module ChatStore {
  import opened Common
  import opened Text
  import opened Seqs

  const USER_ROLE := "user"
  const ASSISTANT_ROLE := "assistant"
  /** Number of characters of the first user message kept in a title. */
  const TITLE_LENGTH := 15
  const ELLIPSIS := "..."
  const JSON_EXT := ".json"

  datatype Message = Message(role: string, content: string)

  /** A JSON document as `json.load` returns it (numbers restricted to integers). */
  datatype Json =
    | JNull
    | JBool(b: bool)
    | JNumber(n: int)
    | JString(s: string)
    | JArray(items: seq<Json>)
    | JObject(fields: map<string, Json>)

  /** The content of `<chat_id>.json`. */
  datatype ChatRecord = ChatRecord(title: string, messages: seq<Message>, selectedFiles: seq<string>)

  /** One row of the history sidebar. */
  datatype ChatEntry = ChatEntry(id: string, title: Json)

  /** The result of opening and parsing one file. */
  datatype FileContent = Unreadable | Parsed(data: Json)

  datatype DirEntry = DirEntry(name: string, content: FileContent)

  // ---------------------------------------------------------------- titles

  /** A message text cut to its first 15 characters, marked when it was longer. */
  function Truncate(content: string): (r: string)
    ensures |content| <= TITLE_LENGTH ==> r == content
    ensures |content| > TITLE_LENGTH ==>
              |r| == TITLE_LENGTH + |ELLIPSIS| && r[..TITLE_LENGTH] == content[..TITLE_LENGTH] && EndsWith(r, ELLIPSIS)
  {
    content[..if |content| < TITLE_LENGTH then |content| else TITLE_LENGTH]
      + (if |content| > TITLE_LENGTH then ELLIPSIS else "")
  }

  /** Position of the first message whose role is "user", if any. */
  function FirstUserMessage(messages: seq<Message>): (r: Option<nat>)
    ensures r.None? <==> forall i :: 0 <= i < |messages| ==> messages[i].role != USER_ROLE
    ensures r.Some? ==>
              r.value < |messages| && messages[r.value].role == USER_ROLE &&
              forall j :: 0 <= j < r.value ==> messages[j].role != USER_ROLE
  {
    if messages == [] then None
    else if messages[0].role == USER_ROLE then Some(0)
    else match FirstUserMessage(messages[1..])
      case None => None
      case Some(k) => Some(k + 1)
  }

  /** The title `save_chat` stores for chat `chatId` holding `messages`. */
  function Title(chatId: string, messages: seq<Message>): (t: string)
    ensures (forall i :: 0 <= i < |messages| ==> messages[i].role != USER_ROLE) ==> t == chatId
    ensures forall i :: 0 <= i < |messages| && messages[i].role == USER_ROLE &&
                        (forall j :: 0 <= j < i ==> messages[j].role != USER_ROLE) ==>
                        t == Truncate(messages[i].content)
  {
    match FirstUserMessage(messages)
    case None => chatId
    case Some(k) => Truncate(messages[k].content)
  }

  /**
   * `save_chat`: the name of the file written and the record written to it.
   * The title loop stops at the first user message.
   */
  method SaveChat(chatId: string, messages: seq<Message>, selectedFiles: seq<string>)
    returns (fileName: string, record: ChatRecord)
    ensures fileName == chatId + JSON_EXT
    ensures record.title == Title(chatId, messages)
    ensures record.messages == messages && record.selectedFiles == selectedFiles
  {
    var title := chatId;
    var i := 0;
    while i < |messages|
      invariant 0 <= i <= |messages|
      invariant forall j :: 0 <= j < i ==> messages[j].role != USER_ROLE
      invariant title == chatId
    {
      if messages[i].role == USER_ROLE {
        title := Truncate(messages[i].content);
        break;
      }
      i := i + 1;
    }
    fileName := chatId + JSON_EXT;
    record := ChatRecord(title, messages, selectedFiles);
  }

  // ------------------------------------------------------- JSON encoding

  function MessageJson(m: Message): Json
  {
    JObject(map["role" := JString(m.role), "content" := JString(m.content)])
  }

  function MessagesJson(messages: seq<Message>): (j: Json)
    ensures j.JArray? && |j.items| == |messages|
  {
    JArray(seq(|messages|, i requires 0 <= i < |messages| => MessageJson(messages[i])))
  }

  function StringsJson(strings: seq<string>): Json
  {
    JArray(seq(|strings|, i requires 0 <= i < |strings| => JString(strings[i])))
  }

  /** The object `json.dump` writes for a chat record. */
  function RecordJson(record: ChatRecord): Json
  {
    JObject(map[
      "title" := JString(record.title),
      "messages" := MessagesJson(record.messages),
      "selected_files" := StringsJson(record.selectedFiles)])
  }

  /** `{"role": …, "content": …}` read back as a message. */
  function DecodeMessage(j: Json): Option<Message>
  {
    if j.JObject? && "role" in j.fields && "content" in j.fields
       && j.fields["role"].JString? && j.fields["content"].JString?
    then Some(Message(j.fields["role"].s, j.fields["content"].s))
    else None
  }

  function DecodeMessages(items: seq<Json>): (r: Option<seq<Message>>)
    ensures r.Some? ==> |r.value| == |items|
  {
    if items == [] then Some([])
    else match (DecodeMessage(items[0]), DecodeMessages(items[1..]))
      case (Some(m), Some(ms)) => Some([m] + ms)
      case _ => None
  }

  /** `data["messages"]` of a loaded chat file, when it is a list of messages. */
  function StoredMessages(data: Json): Option<seq<Message>>
  {
    if data.JObject? && "messages" in data.fields && data.fields["messages"].JArray?
    then DecodeMessages(data.fields["messages"].items)
    else None
  }

  lemma {:induction false} MessagesRoundTrip(messages: seq<Message>)
    ensures DecodeMessages(MessagesJson(messages).items) == Some(messages)
    decreases |messages|
  {
    if messages != [] {
      var items := MessagesJson(messages).items;
      assert items[1..] == MessagesJson(messages[1..]).items;
      MessagesRoundTrip(messages[1..]);
      assert DecodeMessage(items[0]) == Some(messages[0]);
      assert messages == [messages[0]] + messages[1..];
    }
  }

  /** Reopening a saved chat gives back exactly the messages that were saved. */
  lemma ReopenRoundTrip(record: ChatRecord)
    ensures StoredMessages(RecordJson(record)) == Some(record.messages)
  {
    MessagesRoundTrip(record.messages);
  }

  // --------------------------------------------------------------- listing

  /** `f.replace(".json", "")`. */
  function ChatIdOf(name: string): string
  {
    RemoveAll(name, JSON_EXT)
  }

  /**
   * The id drops every ".json" in the name, not only the extension: for any
   * id free of ".json", the file `<id>.json.json` is listed under `id`.
   */
  lemma ChatIdDropsEveryOccurrence(id: string)
    requires !Occurs(JSON_EXT, id)
    ensures ChatIdOf(id + JSON_EXT + JSON_EXT) == id
  {
    RemoveAllAround(id, JSON_EXT);
    RemoveAllAppended([]);
    assert [] + JSON_EXT == JSON_EXT;
  }

  /** A file that yields a row: its name ends in ".json" and it parsed. */
  predicate IsListed(e: DirEntry)
  {
    EndsWith(e.name, JSON_EXT) && e.content.Parsed?
  }

  /** `data.get("title", chat_id) if isinstance(data, dict) else chat_id`. */
  function ListedTitle(data: Json, id: string): (t: Json)
    ensures data.JObject? && "title" in data.fields ==> t == data.fields["title"]
    ensures !(data.JObject? && "title" in data.fields) ==> t == JString(id)
  {
    if data.JObject? && "title" in data.fields then data.fields["title"] else JString(id)
  }

  function EntryOf(e: DirEntry): ChatEntry
    requires e.content.Parsed?
  {
    var id := ChatIdOf(e.name);
    ChatEntry(id, ListedTitle(e.content.data, id))
  }

  /** The rows of `chat_list` before sorting, in directory order. */
  function Collect(entries: seq<DirEntry>): (r: seq<ChatEntry>)
    ensures |r| <= |entries|
  {
    var kept := Filter(entries, IsListed);
    forall k | 0 <= k < |kept| ensures kept[k].content.Parsed? {
      FilterCounts(entries, IsListed, kept[k]);
    }
    seq(|kept|, k requires 0 <= k < |kept| => EntryOf(kept[k]))
  }

  /** A row is listed exactly when some readable ".json" file produces it. */
  lemma CollectMembers(entries: seq<DirEntry>, c: ChatEntry)
    ensures c in Collect(entries) <==> exists e :: e in entries && IsListed(e) && c == EntryOf(e)
  {
    var kept := Filter(entries, IsListed);
    if c in Collect(entries) {
      var k :| 0 <= k < |kept| && Collect(entries)[k] == c;
      FilterCounts(entries, IsListed, kept[k]);
    }
    if exists e :: e in entries && IsListed(e) && c == EntryOf(e) {
      var e :| e in entries && IsListed(e) && c == EntryOf(e);
      FilterCounts(entries, IsListed, e);
      var k :| 0 <= k < |kept| && kept[k] == e;
      assert Collect(entries)[k] == c;
    }
  }

  lemma CollectSnoc(entries: seq<DirEntry>, e: DirEntry)
    ensures Collect(entries + [e]) == Collect(entries) + (if IsListed(e) then [EntryOf(e)] else [])
  {
    FilterSnoc(entries, e, IsListed);
  }

  // --------------------------------------------------------------- sorting

  /** Ids never increase along the sequence: `sorted(…, key=id, reverse=True)`. */
  predicate SortedByIdDesc(s: seq<ChatEntry>)
  {
    forall i, j :: 0 <= i < j < |s| ==> !Less(s[i].id, s[j].id)
  }

  lemma PrependSorted(x: ChatEntry, s: seq<ChatEntry>)
    requires SortedByIdDesc(s)
    requires forall y :: y in s ==> !Less(x.id, y.id)
    ensures SortedByIdDesc([x] + s)
  {
    var r := [x] + s;
    forall i, j | 0 <= i < j < |r| ensures !Less(r[i].id, r[j].id) {
      if i == 0 {
        assert r[j] in s;
      } else {
        assert r[i] == s[i - 1] && r[j] == s[j - 1];
      }
    }
  }

  lemma HeadBoundsAll(x: ChatEntry, s: seq<ChatEntry>)
    requires SortedByIdDesc(s) && (s != [] ==> !Less(x.id, s[0].id))
    ensures forall y :: y in s ==> !Less(x.id, y.id)
  {
    forall y | y in s ensures !Less(x.id, y.id) {
      var j :| 0 <= j < |s| && s[j] == y;
      if j > 0 {
        AtMostTransitive(y.id, s[0].id, x.id);
      }
    }
  }

  lemma BoundsInsertion(h: ChatEntry, x: ChatEntry, t: seq<ChatEntry>, r: seq<ChatEntry>)
    requires forall y :: y in t ==> !Less(h.id, y.id)
    requires !Less(h.id, x.id)
    requires multiset(r) == multiset(t) + multiset{x}
    ensures forall y :: y in r ==> !Less(h.id, y.id)
  {
    forall y | y in r ensures !Less(h.id, y.id) {
      assert y in multiset(r);
      assert y == x || y in multiset(t);
    }
  }

  /** Places `x` before the first row whose id is not greater than its own. */
  function InsertById(x: ChatEntry, s: seq<ChatEntry>): (r: seq<ChatEntry>)
    requires SortedByIdDesc(s)
    ensures SortedByIdDesc(r)
    ensures multiset(r) == multiset(s) + multiset{x}
  {
    if s == [] || !Less(x.id, s[0].id) then
      HeadBoundsAll(x, s);
      PrependSorted(x, s);
      [x] + s
    else
      var rest := InsertById(x, s[1..]);
      LessAsymmetric(x.id, s[0].id);
      assert s == [s[0]] + s[1..];
      LessIrreflexive(s[0].id);
      HeadBoundsAll(s[0], s);
      BoundsInsertion(s[0], x, s[1..], rest);
      PrependSorted(s[0], rest);
      [s[0]] + rest
  }

  /** `sorted(rows, key=lambda x: x["id"], reverse=True)`, as an insertion sort. */
  function SortByIdDesc(s: seq<ChatEntry>): (r: seq<ChatEntry>)
    ensures SortedByIdDesc(r)
    ensures multiset(r) == multiset(s)
  {
    if s == [] then []
    else
      assert s == [s[0]] + s[1..];
      InsertById(s[0], SortByIdDesc(s[1..]))
  }

  /**
   * `list_chats`: no rows when the history directory is missing; otherwise
   * one row per readable ".json" file, newest id first.
   */
  method ListChats(dir: Option<seq<DirEntry>>) returns (chats: seq<ChatEntry>)
    ensures dir.None? ==> chats == []
    ensures dir.Some? ==> chats == SortByIdDesc(Collect(dir.value))
    ensures SortedByIdDesc(chats)
    ensures dir.Some? ==> multiset(chats) == multiset(Collect(dir.value))
  {
    if dir.None? {
      return [];
    }
    var files := dir.value;
    var chatList: seq<ChatEntry> := [];
    var i := 0;
    while i < |files|
      invariant 0 <= i <= |files|
      invariant chatList == Collect(files[..i])
    {
      var f := files[i];
      assert files[..i + 1] == files[..i] + [f];
      CollectSnoc(files[..i], f);
      if EndsWith(f.name, JSON_EXT) {
        var chatId := ChatIdOf(f.name);
        match f.content
        case Unreadable =>
        case Parsed(data) =>
          chatList := chatList + [ChatEntry(chatId, ListedTitle(data, chatId))];
      }
      i := i + 1;
    }
    assert files[..|files|] == files;
    chats := SortByIdDesc(chatList);
  }

  /**
   * A chat saved under an id free of ".json" is listed again under that same
   * id, with the title it was saved with.
   */
  lemma SavedChatListed(chatId: string, messages: seq<Message>, selectedFiles: seq<string>)
    requires !Occurs(JSON_EXT, chatId)
    ensures var record := ChatRecord(Title(chatId, messages), messages, selectedFiles);
            Collect([DirEntry(chatId + JSON_EXT, Parsed(RecordJson(record)))])
              == [ChatEntry(chatId, JString(record.title))]
  {
    var record := ChatRecord(Title(chatId, messages), messages, selectedFiles);
    var e := DirEntry(chatId + JSON_EXT, Parsed(RecordJson(record)));
    RemoveAllAppended(chatId);
    assert EndsWith(e.name, JSON_EXT);
    CollectSnoc([], e);
    assert [] + [e] == [e];
  }
}

=== FILE: common.dfy ===
/** Small value types shared by the modules of the model. */
module Common {

  /** Python's `None` or a present value. */
  datatype Option<+T> = None | Some(value: T)
}

=== FILE: documents.dfy ===
/**
 * The document side of a session: which files of the user's data directory
 * are listed, which of them are selected, the metadata filter that scopes
 * every query to the selection, and the guard and persist rule of `get_index`.
 */
module Documents {
  import opened Common
  import opened Text
  import opened Seqs

  /** `target_exts`, compared against the lower-cased file name. */
  const TARGET_EXTS: seq<string> := [".pdf", ".txt", ".docx"]
  const FILE_PATH_KEY := "file_path"
  const OR_CONDITION := "or"
  const CHECKBOX_PREFIX := "check_"

  /** `f.lower().endswith(target_exts)`. */
  predicate HasDocExt(name: string)
  {
    exists k | 0 <= k < |TARGET_EXTS| :: EndsWith(Lower(name), TARGET_EXTS[k])
  }

  /** An upper-case extension is listed like a lower-case one. */
  lemma UpperCaseExtensionListed(stem: string)
    ensures HasDocExt(stem + ".PDF") && HasDocExt(stem + ".TXT") && HasDocExt(stem + ".DOCX")
  {
    var pdf, txt, docx := Lower(stem + ".PDF"), Lower(stem + ".TXT"), Lower(stem + ".DOCX");
    assert pdf[|stem|..] == ".pdf";
    assert EndsWith(pdf, TARGET_EXTS[0]);
    assert txt[|stem|..] == ".txt";
    assert EndsWith(txt, TARGET_EXTS[1]);
    assert docx[|stem|..] == ".docx";
    assert EndsWith(docx, TARGET_EXTS[2]);
  }

  /** The files shown in the sidebar, in directory order. */
  function ListFiles(listing: seq<string>): (files: seq<string>)
    ensures IsSubseq(files, listing)
    ensures forall f :: f in files <==> f in listing && HasDocExt(f)
  {
    var r := Filter(listing, HasDocExt);
    forall f ensures f in r <==> f in listing && HasDocExt(f) {
      FilterCounts(listing, HasDocExt, f);
    }
    r
  }

  /** A checkbox is ticked unless its widget state says otherwise (`value=True`). */
  predicate IsChecked(boxes: map<string, bool>, f: string)
  {
    var key := CHECKBOX_PREFIX + f;
    if key in boxes then boxes[key] else true
  }

  /** The selection loop: the listed files whose checkbox is ticked. */
  method SelectFiles(files: seq<string>, boxes: map<string, bool>) returns (selected: seq<string>)
    ensures selected == Filter(files, f => IsChecked(boxes, f))
    ensures IsSubseq(selected, files)
    ensures forall f :: f in selected <==> f in files && IsChecked(boxes, f)
  {
    var checked := f => IsChecked(boxes, f);
    selected := [];
    var i := 0;
    while i < |files|
      invariant 0 <= i <= |files|
      invariant selected == Filter(files[..i], checked)
    {
      assert files[..i + 1] == files[..i] + [files[i]];
      FilterSnoc(files[..i], files[i], checked);
      if IsChecked(boxes, files[i]) {
        selected := selected + [files[i]];
      }
      i := i + 1;
    }
    assert files[..|files|] == files;
    forall f ensures f in selected <==> f in files && IsChecked(boxes, f) {
      FilterCounts(files, checked, f);
    }
  }

  /** `os.path.join(a, b)` on POSIX paths. */
  function PathJoin(a: string, b: string): (r: string)
    ensures EndsWith(r, b)
    ensures b != [] && b[0] == '/' ==> r == b
    ensures (b == [] || b[0] != '/') ==> |a| <= |r| && r[..|a|] == a
    ensures (b == [] || b[0] != '/') && a != [] && !EndsWith(a, "/") ==> |r| == |a| + 1 + |b| && r[|a|] == '/'
    ensures (b == [] || b[0] != '/') && (a == [] || EndsWith(a, "/")) ==> |r| == |a| + |b|
  {
    if b != [] && b[0] == '/' then b
    else if a == [] || EndsWith(a, "/") then a + b
    else a + "/" + b
  }

  datatype ExactMatchFilter = ExactMatchFilter(key: string, value: string)
  datatype MetadataFilters = MetadataFilters(filters: seq<ExactMatchFilter>, condition: string)

  /** The filter built from the selection, or none when nothing is selected. */
  function ScopeFilter(dataDir: string, selected: seq<string>): (r: Option<MetadataFilters>)
    ensures r.None? <==> selected == []
    ensures r.Some? ==>
              && r.value.condition == OR_CONDITION
              && |r.value.filters| == |selected|
              && forall i :: 0 <= i < |selected| ==>
                   r.value.filters[i] == ExactMatchFilter(FILE_PATH_KEY, PathJoin(dataDir, selected[i]))
  {
    if selected == [] then None
    else
      Some(MetadataFilters(
        seq(|selected|, i requires 0 <= i < |selected| => ExactMatchFilter(FILE_PATH_KEY, PathJoin(dataDir, selected[i]))),
        OR_CONDITION))
  }

  predicate ClauseHolds(c: ExactMatchFilter, metadata: map<string, string>)
  {
    c.key in metadata && metadata[c.key] == c.value
  }

  /** Whether a chunk with `metadata` may be retrieved under `filter`. */
  predicate Admits(filter: Option<MetadataFilters>, metadata: map<string, string>)
  {
    match filter
    case None => true
    case Some(mf) =>
      if mf.condition == OR_CONDITION then
        exists i | 0 <= i < |mf.filters| :: ClauseHolds(mf.filters[i], metadata)
      else
        forall i | 0 <= i < |mf.filters| :: ClauseHolds(mf.filters[i], metadata)
  }

  /**
   * Scoping: under the filter of a non-empty selection, a chunk is admitted
   * exactly when its file path is the joined path of a selected file.
   */
  lemma ScopeAdmitsExactlySelected(dataDir: string, selected: seq<string>, metadata: map<string, string>)
    requires selected != []
    ensures Admits(ScopeFilter(dataDir, selected), metadata) <==>
              FILE_PATH_KEY in metadata &&
              exists i | 0 <= i < |selected| :: metadata[FILE_PATH_KEY] == PathJoin(dataDir, selected[i])
  {
    var mf := ScopeFilter(dataDir, selected).value;
    if Admits(ScopeFilter(dataDir, selected), metadata) {
      var i :| 0 <= i < |mf.filters| && ClauseHolds(mf.filters[i], metadata);
      assert metadata[FILE_PATH_KEY] == PathJoin(dataDir, selected[i]);
    }
    if FILE_PATH_KEY in metadata &&
       exists i | 0 <= i < |selected| :: metadata[FILE_PATH_KEY] == PathJoin(dataDir, selected[i]) {
      var i :| 0 <= i < |selected| && metadata[FILE_PATH_KEY] == PathJoin(dataDir, selected[i]);
      assert ClauseHolds(mf.filters[i], metadata);
    }
  }

  /** What `get_index` returns and whether it wrote the index to storage. */
  datatype IndexLoad =
    | NoIndex
    | Loaded(fromStorage: bool, inputFiles: seq<string>, persisted: bool)

  /** `[os.path.join(DATA_DIR, f) for f in file_list]`. */
  function InputFiles(dataDir: string, fileList: seq<string>): (paths: seq<string>)
    ensures |paths| == |fileList|
    ensures forall i :: 0 <= i < |fileList| ==> paths[i] == PathJoin(dataDir, fileList[i])
  {
    seq(|fileList|, i requires 0 <= i < |fileList| => PathJoin(dataDir, fileList[i]))
  }

  /**
   * What `get_index` loads and what the query may retrieve agree: under the
   * filter of a non-empty selection, a chunk is admitted exactly when its
   * file path is one of the paths the index was refreshed from.
   */
  lemma IndexedPathsAdmitted(dataDir: string, selected: seq<string>, metadata: map<string, string>)
    requires selected != []
    ensures Admits(ScopeFilter(dataDir, selected), metadata) <==>
              FILE_PATH_KEY in metadata && metadata[FILE_PATH_KEY] in InputFiles(dataDir, selected)
  {
    ScopeAdmitsExactlySelected(dataDir, selected, metadata);
    var paths := InputFiles(dataDir, selected);
    if FILE_PATH_KEY in metadata && metadata[FILE_PATH_KEY] in paths {
      var i :| 0 <= i < |paths| && paths[i] == metadata[FILE_PATH_KEY];
      assert metadata[FILE_PATH_KEY] == PathJoin(dataDir, selected[i]);
    }
    if FILE_PATH_KEY in metadata &&
       exists i | 0 <= i < |selected| :: metadata[FILE_PATH_KEY] == PathJoin(dataDir, selected[i]) {
      var i :| 0 <= i < |selected| && metadata[FILE_PATH_KEY] == PathJoin(dataDir, selected[i]);
      assert paths[i] == metadata[FILE_PATH_KEY];
    }
  }

  /**
   * `get_index`: no index over zero files; otherwise the stored index (or a
   * fresh empty one) is refreshed against the joined input paths, and it is
   * persisted exactly when the refresh reports at least one changed document.
   * `refresh` stands for loading the files and `refresh_ref_docs`.
   */
  function GetIndex(dataDir: string, fileList: seq<string>, docstoreExists: bool,
                    refresh: seq<string> -> seq<bool>): (r: IndexLoad)
    ensures r.NoIndex? <==> fileList == []
    ensures r.Loaded? ==>
              && r.fromStorage == docstoreExists
              && r.inputFiles == InputFiles(dataDir, fileList)
              && (r.persisted <==> exists k | 0 <= k < |refresh(r.inputFiles)| :: refresh(r.inputFiles)[k])
  {
    if fileList == [] then NoIndex
    else
      var inputFiles := InputFiles(dataDir, fileList);
      var refreshed := refresh(inputFiles);
      Loaded(docstoreExists, inputFiles, exists k | 0 <= k < |refreshed| :: refreshed[k])
  }

  /** A refresh of these files that reports nothing changed does not rewrite storage. */
  lemma UnchangedRefreshSkipsPersist(dataDir: string, fileList: seq<string>, docstoreExists: bool,
                                     refresh: seq<string> -> seq<bool>)
    requires fileList != []
    requires forall k :: 0 <= k < |refresh(InputFiles(dataDir, fileList))| ==> !refresh(InputFiles(dataDir, fileList))[k]
    ensures !GetIndex(dataDir, fileList, docstoreExists, refresh).persisted
  {
  }

  /**
   * Whenever an index exists for the selection, so does its filter: no query
   * of the session runs unscoped.
   */
  lemma IndexImpliesScope(dataDir: string, selected: seq<string>, docstoreExists: bool,
                          refresh: seq<string> -> seq<bool>)
    ensures GetIndex(dataDir, selected, docstoreExists, refresh).Loaded? ==> ScopeFilter(dataDir, selected).Some?
  {
  }
}

=== FILE: registration.dfy ===
/**
 * New-user registration: the ordered validation of the form and the insertion
 * of the new user into the credential map `config['credentials']['usernames']`.
 * The password hasher is a parameter.
 */
module Registration {
  import opened Text

  /** The four fields of the registration form. */
  datatype Form = Form(user: string, email: string, password: string, confirm: string)

  /** The rejection messages, in the order they are checked. */
  datatype RegError = NotAlphanumeric | InvalidEmail | MissingField | PasswordMismatch | UsernameTaken

  datatype Verdict = Accepted | Rejected(error: RegError)

  /** One entry of the credential map. */
  datatype UserRecord = UserRecord(email: string, name: string, password: string)

  /** The email check: it contains both "@" and ".". */
  predicate PlausibleEmail(email: string)
  {
    '@' in email && '.' in email
  }

  /** The `if … elif …` chain: the first failing check decides the verdict. */
  function Validate(form: Form, usernames: map<string, UserRecord>): (v: Verdict)
    ensures v == Accepted <==>
              IsAlnum(form.user) && PlausibleEmail(form.email) && form.password != ""
              && form.password == form.confirm && form.user !in usernames
    ensures v == Rejected(NotAlphanumeric) <==> !IsAlnum(form.user)
    ensures form.user == "" ==> v == Rejected(NotAlphanumeric)
    ensures v == Rejected(InvalidEmail) <==> IsAlnum(form.user) && !PlausibleEmail(form.email)
    ensures v == Rejected(MissingField) <==>
              IsAlnum(form.user) && PlausibleEmail(form.email) && form.password == ""
    ensures v == Rejected(PasswordMismatch) <==>
              IsAlnum(form.user) && PlausibleEmail(form.email) && form.password != ""
              && form.password != form.confirm
    ensures v == Rejected(UsernameTaken) <==>
              IsAlnum(form.user) && PlausibleEmail(form.email) && form.password != ""
              && form.password == form.confirm && form.user in usernames
  {
    if !IsAlnum(form.user) then Rejected(NotAlphanumeric)
    else if !PlausibleEmail(form.email) then Rejected(InvalidEmail)
    else if form.user == "" || form.password == "" || form.email == "" then Rejected(MissingField)
    else if form.password != form.confirm then Rejected(PasswordMismatch)
    else if form.user in usernames then Rejected(UsernameTaken)
    else Accepted
  }

  /** The credential map after the button press. */
  function Registered(usernames: map<string, UserRecord>, form: Form, hash: string -> string)
    : (r: map<string, UserRecord>)
    ensures Validate(form, usernames) != Accepted ==> r == usernames
    ensures Validate(form, usernames) == Accepted ==>
              && form.user !in usernames
              && r.Keys == usernames.Keys + {form.user}
              && |r| == |usernames| + 1
              && r[form.user] == UserRecord(form.email, form.user, hash(form.password))
              && forall u :: u in usernames ==> r[u] == usernames[u]
  {
    if Validate(form, usernames) == Accepted then
      usernames[form.user := UserRecord(form.email, form.user, hash(form.password))]
    else
      usernames
  }

  /** The loaded configuration's credential map, updated in place on success. */
  class CredentialStore {
    var usernames: map<string, UserRecord>

    constructor (loaded: map<string, UserRecord>)
      ensures usernames == loaded
    {
      usernames := loaded;
    }

    /** The "register" button: validate, then insert the hashed credential. */
    method Register(form: Form, hash: string -> string) returns (verdict: Verdict)
      modifies this
      ensures verdict == Validate(form, old(usernames))
      ensures usernames == Registered(old(usernames), form, hash)
    {
      if !IsAlnum(form.user) {
        verdict := Rejected(NotAlphanumeric);
      } else if !('@' in form.email && '.' in form.email) {
        verdict := Rejected(InvalidEmail);
      } else if form.user == "" || form.password == "" || form.email == "" {
        verdict := Rejected(MissingField);
      } else if form.password != form.confirm {
        verdict := Rejected(PasswordMismatch);
      } else if form.user in usernames {
        verdict := Rejected(UsernameTaken);
      } else {
        var hashed := hash(form.password);
        usernames := usernames[form.user := UserRecord(form.email, form.user, hashed)];
        verdict := Accepted;
      }
    }
  }
}

=== FILE: seqs.dfy ===
/**
 * Order-preserving selection from a sequence: the shape of every list
 * comprehension `[x for x in xs if p(x)]` and of every `append` loop guarded by
 * a condition in the application.
 */
module Seqs {

  /** `a` is obtained from `b` by deleting elements, keeping the rest in order. */
  predicate IsSubseq<T(==)>(a: seq<T>, b: seq<T>)
    decreases |b|
  {
    a == [] || (b != [] && ((a[0] == b[0] && IsSubseq(a[1..], b[1..])) || IsSubseq(a, b[1..])))
  }

  /** `[x for x in s if p(x)]`. */
  function Filter<T(==,!new)>(s: seq<T>, p: T -> bool): (r: seq<T>)
    ensures |r| <= |s|
    ensures IsSubseq(r, s)
  {
    if s == [] then
      []
    else
      var rest := Filter(s[1..], p);
      assert s == [s[0]] + s[1..];
      if p(s[0]) then
        var r := [s[0]] + rest;
        assert r[1..] == rest;
        r
      else
        rest
  }

  /**
   * The filter keeps every occurrence of an element that passes and drops
   * every occurrence of one that does not.
   */
  lemma {:induction false} FilterCounts<T(!new)>(s: seq<T>, p: T -> bool, x: T)
    ensures multiset(Filter(s, p))[x] == if p(x) then multiset(s)[x] else 0
    ensures x in Filter(s, p) <==> x in s && p(x)
    decreases |s|
  {
    if s != [] {
      FilterCounts(s[1..], p, x);
      assert s == [s[0]] + s[1..];
    }
  }

  /** Filtering one more element appends it exactly when it passes. */
  lemma {:induction false} FilterSnoc<T(!new)>(s: seq<T>, x: T, p: T -> bool)
    ensures Filter(s + [x], p) == Filter(s, p) + (if p(x) then [x] else [])
    decreases |s|
  {
    if s == [] {
      assert s + [x] == [x] && [x][1..] == [];
    } else {
      var t := s + [x];
      assert t[0] == s[0] && t[1..] == s[1..] + [x];
      FilterSnoc(s[1..], x, p);
      var head := if p(s[0]) then [s[0]] else [];
      assert Filter(t, p) == head + Filter(t[1..], p);
      assert Filter(s, p) == head + Filter(s[1..], p);
    }
  }
}

=== FILE: session.dfy ===
/**
 * The session state of the main page (`st.session_state`): the transcript,
 * the current chat id, the processing flag and the pending canned task, plus
 * the chat-history directory the session writes to.  Each button press or
 * chat submission is one method; the query engine is an oracle whose answer
 * (or failure) is a parameter.
 */
module Session {
  import opened Common
  import opened ChatStore
  import opened Documents

  const CONTRADICTION_PROMPT := "選ばれた資料を比較し、数値や手順に矛盾（食い違い）があれば具体的に指摘してください。なければ『整合性に問題はありません』と答えて。"
  const CONTRADICTION_LABEL := "\U{1F6A8} 資料間の矛盾チェックを開始します"
  const SUMMARY_PROMPT := "選ばれた資料全体の内容を、重要なポイントに絞って簡潔に要約してください。"
  const SUMMARY_LABEL := "\U{1F4DD} 全体の要約を作成します"
  /** Retrieval breadth of the canned tasks. */
  const TASK_TOP_K := 10
  /** Retrieval breadth of free-form chat. */
  const CHAT_TOP_K := 5

  /** The two canned-task buttons. */
  datatype Task = CheckContradictions | Summarize

  function TaskPrompt(task: Task): string
  {
    match task
    case CheckContradictions => CONTRADICTION_PROMPT
    case Summarize => SUMMARY_PROMPT
  }

  /** The user message that announces a canned task in the transcript. */
  function TaskLabel(task: Task): string
  {
    match task
    case CheckContradictions => CONTRADICTION_LABEL
    case Summarize => SUMMARY_LABEL
  }

  /** One call of `index.as_query_engine(...).query(prompt)`. */
  datatype QueryRequest = QueryRequest(prompt: string, filters: Option<MetadataFilters>, topK: nat, streaming: bool)

  /**
   * A streamed answer: the fragments the engine yields, and whether it ran to
   * its end (false: it raised after yielding `fragments`).
   */
  datatype Stream = Stream(fragments: seq<string>, completes: bool)

  /** The fragments of a streamed answer, joined in order. */
  function Concat(fragments: seq<string>): string
  {
    if fragments == [] then "" else fragments[0] + Concat(fragments[1..])
  }

  /** Joining is in order: the join of two runs of fragments is the join of each. */
  lemma {:induction false} ConcatAppend(a: seq<string>, b: seq<string>)
    ensures Concat(a + b) == Concat(a) + Concat(b)
    decreases |a|
  {
    if a == [] {
      assert a + b == b;
    } else {
      assert (a + b)[1..] == a[1..] + b;
      ConcatAppend(a[1..], b);
    }
  }

  /** The streaming loop `full_res += text`. */
  method Accumulate(fragments: seq<string>) returns (full: string)
    ensures full == Concat(fragments)
  {
    full := "";
    var i := 0;
    while i < |fragments|
      invariant 0 <= i <= |fragments|
      invariant full == Concat(fragments[..i])
    {
      assert fragments[..i + 1] == fragments[..i] + [fragments[i]];
      ConcatAppend(fragments[..i], [fragments[i]]);
      assert Concat([fragments[i]]) == fragments[i];
      full := full + fragments[i];
      i := i + 1;
    }
    assert fragments[..|fragments|] == fragments;
  }

  /**
   * The per-browser session: the transcript, the chat id, the processing
   * flag with its pending prompt, and the chat-history directory it saves
   * into.  Each run's filter and index come from that run's file selection.
   */
  class SessionState {
    var messages: seq<Message>
    var chatId: string
    var isProcessing: bool
    var pendingTaskPrompt: Option<string>
    /** The chat-history directory: file name to what reading that file gives. */
    var chatFiles: map<string, FileContent>

    /** At most one task in flight: the flag is set exactly while a prompt is pending. */
    ghost predicate Valid()
      reads this
    {
      && (isProcessing <==> pendingTaskPrompt.Some?)
      && (pendingTaskPrompt.Some? ==> pendingTaskPrompt.value in {CONTRADICTION_PROMPT, SUMMARY_PROMPT})
    }

    /** Opening `<id>.json` in the history directory; a missing file cannot be read. */
    function ChatFile(id: string): FileContent
      reads this
    {
      var name := id + JSON_EXT;
      if name in chatFiles then chatFiles[name] else Unreadable
    }

    /** The defaults set when the session starts. */
    constructor (initialChatId: string, savedChats: map<string, FileContent>)
      ensures Valid()
      ensures messages == [] && chatId == initialChatId && chatFiles == savedChats
      ensures !isProcessing && pendingTaskPrompt == None
    {
      messages := [];
      chatId := initialChatId;
      isProcessing := false;
      pendingTaskPrompt := None;
      chatFiles := savedChats;
    }

    /** `save_chat(chat_id, messages, selected_files)` into the history directory. */
    method Save(selectedFiles: seq<string>)
      modifies this`chatFiles
      ensures chatFiles == old(chatFiles)[chatId + JSON_EXT :=
                Parsed(RecordJson(ChatRecord(Title(chatId, messages), messages, selectedFiles)))]
    {
      var fileName, record := SaveChat(chatId, messages, selectedFiles);
      chatFiles := chatFiles[fileName := Parsed(RecordJson(record))];
    }

    /**
     * A canned-task button.  Ignored while processing (the button is
     * disabled) and rejected when the selection gives no filter; otherwise
     * the task becomes pending and its label is appended as a user message.
     */
    method StartTask(task: Task, dataDir: string, selectedFiles: seq<string>) returns (accepted: bool)
      requires Valid()
      modifies this
      ensures Valid()
      ensures accepted <==> !old(isProcessing) && ScopeFilter(dataDir, selectedFiles).Some?
      ensures accepted <==> !old(isProcessing) && selectedFiles != []
      ensures accepted ==>
                && isProcessing && pendingTaskPrompt == Some(TaskPrompt(task))
                && messages == old(messages) + [Message(USER_ROLE, TaskLabel(task))]
      ensures !accepted ==>
                isProcessing == old(isProcessing) && pendingTaskPrompt == old(pendingTaskPrompt) && messages == old(messages)
      ensures chatId == old(chatId) && chatFiles == old(chatFiles)
    {
      accepted := false;
      if isProcessing {
        return;
      }
      var filters := ScopeFilter(dataDir, selectedFiles);
      if filters.None? {
        return;
      }
      isProcessing := true;
      pendingTaskPrompt := Some(TaskPrompt(task));
      messages := messages + [Message(USER_ROLE, TaskLabel(task))];
      accepted := true;
    }

    /**
     * The pending-task block.  `index` is what `get_index` gave for the same
     * selection.  With a task pending and an index, the prompt is sent with
     * top-k 10 under the selection's filter; when the engine answers, the
     * answer is appended, the chat is saved and the flag and prompt are
     * cleared.  When the engine (or the missing index) raises, nothing
     * changes and the task stays pending.
     */
    method ProcessPending(dataDir: string, selectedFiles: seq<string>, index: IndexLoad, answer: Option<string>)
      returns (request: Option<QueryRequest>, answered: bool)
      requires Valid()
      requires index.NoIndex? <==> selectedFiles == []
      modifies this
      ensures Valid()
      ensures request.Some? <==> old(isProcessing) && index.Loaded?
      ensures request.Some? ==>
                request.value == QueryRequest(old(pendingTaskPrompt).value, ScopeFilter(dataDir, selectedFiles), TASK_TOP_K, false)
      ensures request.Some? ==> request.value.filters.Some?
      ensures answered <==> request.Some? && answer.Some?
      ensures answered ==>
                && messages == old(messages) + [Message(ASSISTANT_ROLE, answer.value)]
                && !isProcessing && pendingTaskPrompt == None
                && chatFiles == old(chatFiles)[chatId + JSON_EXT :=
                     Parsed(RecordJson(ChatRecord(Title(chatId, messages), messages, selectedFiles)))]
      ensures !answered ==>
                && messages == old(messages) && isProcessing == old(isProcessing)
                && pendingTaskPrompt == old(pendingTaskPrompt) && chatFiles == old(chatFiles)
      ensures chatId == old(chatId)
    {
      request, answered := None, false;
      if !(isProcessing && pendingTaskPrompt.Some? && pendingTaskPrompt.value != "") {
        return;
      }
      if index.NoIndex? {
        return;
      }
      var filters := ScopeFilter(dataDir, selectedFiles);
      request := Some(QueryRequest(pendingTaskPrompt.value, filters, TASK_TOP_K, false));
      if answer.None? {
        return;
      }
      messages := messages + [Message(ASSISTANT_ROLE, answer.value)];
      Save(selectedFiles);
      isProcessing := false;
      pendingTaskPrompt := None;
      answered := true;
    }

    /**
     * The chat input, shown only while not processing and acted on only with
     * an index and a non-empty prompt: the prompt is appended, the streamed
     * answer is queried with top-k 5 under the selection's filter and, once
     * the stream is exhausted, its fragments joined in order are appended
     * and the chat is saved.  A stream that raises leaves the prompt in the
     * transcript and saves nothing.
     */
    method SubmitChat(prompt: Option<string>, dataDir: string, selectedFiles: seq<string>, index: IndexLoad,
                      stream: Stream)
      returns (request: Option<QueryRequest>)
      requires Valid()
      requires index.NoIndex? <==> selectedFiles == []
      modifies this
      ensures Valid()
      ensures request.Some? <==> !old(isProcessing) && index.Loaded? && prompt.Some? && prompt.value != ""
      ensures request.Some? ==>
                request.value == QueryRequest(prompt.value, ScopeFilter(dataDir, selectedFiles), CHAT_TOP_K, true)
      ensures request.Some? ==> request.value.filters.Some?
      ensures request.Some? && stream.completes ==>
                && messages == old(messages) + [Message(USER_ROLE, prompt.value), Message(ASSISTANT_ROLE, Concat(stream.fragments))]
                && chatFiles == old(chatFiles)[chatId + JSON_EXT :=
                     Parsed(RecordJson(ChatRecord(Title(chatId, messages), messages, selectedFiles)))]
      ensures request.Some? && !stream.completes ==>
                messages == old(messages) + [Message(USER_ROLE, prompt.value)] && chatFiles == old(chatFiles)
      ensures request.None? ==> messages == old(messages) && chatFiles == old(chatFiles)
      ensures isProcessing == old(isProcessing) && pendingTaskPrompt == old(pendingTaskPrompt)
      ensures chatId == old(chatId)
    {
      request := None;
      if isProcessing || index.NoIndex? || prompt.None? || prompt.value == "" {
        return;
      }
      var p := prompt.value;
      messages := messages + [Message(USER_ROLE, p)];
      var filters := ScopeFilter(dataDir, selectedFiles);
      request := Some(QueryRequest(p, filters, CHAT_TOP_K, true));
      if !stream.completes {
        return;
      }
      var fullRes := Accumulate(stream.fragments);
      messages := messages + [Message(ASSISTANT_ROLE, fullRes)];
      Save(selectedFiles);
    }

    /** "New chat": disabled while processing; starts an empty transcript under a new id. */
    method NewChat(newChatId: string) returns (started: bool)
      requires Valid()
      modifies this
      ensures Valid()
      ensures started <==> !old(isProcessing)
      ensures started ==> chatId == newChatId && messages == []
      ensures !started ==> chatId == old(chatId) && messages == old(messages)
      ensures isProcessing == old(isProcessing) && pendingTaskPrompt == old(pendingTaskPrompt)
      ensures chatFiles == old(chatFiles)
    {
      started := !isProcessing;
      if started {
        chatId := newChatId;
        messages := [];
      }
    }

    /**
     * A history button (not disabled while processing): the transcript
     * becomes the stored messages of `<id>.json` and the chat id becomes
     * `id`; a missing or unreadable file, or one without a message list,
     * changes nothing.
     */
    method OpenChat(id: string) returns (loaded: bool)
      requires Valid()
      modifies this
      ensures Valid()
      ensures loaded <==> ChatFile(id).Parsed? && StoredMessages(ChatFile(id).data).Some?
      ensures loaded ==> messages == StoredMessages(ChatFile(id).data).value && chatId == id
      ensures !loaded ==> messages == old(messages) && chatId == old(chatId)
      ensures isProcessing == old(isProcessing) && pendingTaskPrompt == old(pendingTaskPrompt)
      ensures chatFiles == old(chatFiles)
    {
      loaded := false;
      var content := ChatFile(id);
      if content.Unreadable? {
        return;
      }
      match StoredMessages(content.data)
      case None =>
      case Some(stored) =>
        messages := stored;
        chatId := id;
        loaded := true;
    }

    /**
     * "Rebuild index": disabled while processing.  Removing the storage
     * directory also removes the chat-history directory inside it, which is
     * recreated empty, so every saved chat is gone; the open transcript stays.
     */
    method Rebuild() returns (done: bool)
      requires Valid()
      modifies this`chatFiles
      ensures Valid()
      ensures done <==> !isProcessing
      ensures done ==> chatFiles == map[]
      ensures !done ==> chatFiles == old(chatFiles)
    {
      done := !isProcessing;
      if done {
        chatFiles := map[];
      }
    }

    /** The delete button of a history entry removes its file. */
    method DeleteChat(id: string)
      requires Valid()
      modifies this`chatFiles
      ensures Valid()
      ensures chatFiles == old(chatFiles) - {id + JSON_EXT}
    {
      chatFiles := chatFiles - {id + JSON_EXT};
    }
  }

  /**
   * Saving the current chat and then opening it from the history gives back
   * the same transcript under the same id.
   */
  method SaveThenReopen(session: SessionState, selectedFiles: seq<string>) returns (loaded: bool)
    requires session.Valid()
    modifies session
    ensures session.Valid()
    ensures loaded
    ensures session.ChatFile(session.chatId).Parsed?
    ensures StoredMessages(session.ChatFile(session.chatId).data) == Some(session.messages)
    ensures session.chatFiles == old(session.chatFiles)[old(session.chatId) + JSON_EXT :=
              Parsed(RecordJson(ChatRecord(Title(old(session.chatId), old(session.messages)), old(session.messages), selectedFiles)))]
    ensures session.messages == old(session.messages) && session.chatId == old(session.chatId)
    ensures session.isProcessing == old(session.isProcessing)
    ensures session.pendingTaskPrompt == old(session.pendingTaskPrompt)
  {
    session.Save(selectedFiles);
    ReopenRoundTrip(ChatRecord(Title(session.chatId, session.messages), session.messages, selectedFiles));
    loaded := session.OpenChat(session.chatId);
  }
}

=== FILE: text.dfy ===
/**
 * String helpers with Python's `str` semantics, as the application uses them:
 * `endswith`, `replace(pat, "")`, `lower`, `isalnum`, `in`, and the ordering
 * `sorted` applies to strings.  Characters are Unicode scalar values, as
 * Python's code points are; `lower` and `isalnum` are restricted to ASCII.
 */
module Text {

  /** `s.endswith(suffix)`. */
  predicate EndsWith(s: string, suffix: string)
  {
    |suffix| <= |s| && s[|s| - |suffix|..] == suffix
  }

  /** `pat` starts at position `i` of `s`. */
  predicate OccursAt(pat: string, s: string, i: int)
  {
    0 <= i && i + |pat| <= |s| && s[i..i + |pat|] == pat
  }

  /** `pat in s`. */
  predicate Occurs(pat: string, s: string)
  {
    exists i | 0 <= i <= |s| :: OccursAt(pat, s, i)
  }

  /**
   * `s.replace(pat, "")`: scans left to right and deletes every
   * non-overlapping occurrence of `pat`.
   */
  function RemoveAll(s: string, pat: string): (r: string)
    requires pat != []
    ensures |r| <= |s|
    ensures !Occurs(pat, s) ==> r == s
    decreases |s|
  {
    if |s| < |pat| then
      s
    else if s[..|pat|] == pat then
      assert OccursAt(pat, s, 0);
      RemoveAll(s[|pat|..], pat)
    else
      NoOccurrenceInTail(pat, s);
      [s[0]] + RemoveAll(s[1..], pat)
  }

  lemma NoOccurrenceInTail(pat: string, s: string)
    requires s != []
    ensures !Occurs(pat, s) ==> !Occurs(pat, s[1..])
  {
    if Occurs(pat, s[1..]) {
      var i :| 0 <= i <= |s[1..]| && OccursAt(pat, s[1..], i);
      assert 0 <= i && i + |pat| <= |s| - 1;
      assert s[i + 1..i + 1 + |pat|] == s[1..][i..i + |pat|];
      assert OccursAt(pat, s, i + 1);
    }
  }

  /**
   * ".json" has no border (no proper prefix that is also a suffix), so no
   * occurrence can straddle the edge of an inserted ".json": removing every
   * occurrence from `s + ".json" + t` removes them from `s` and `t` apart.
   */
  lemma {:induction false} RemoveAllAround(s: string, t: string)
    ensures RemoveAll(s + ".json" + t, ".json") == RemoveAll(s, ".json") + RemoveAll(t, ".json")
    decreases |s|
  {
    if s == [] {
      InsertedAtFront(t);
    } else if |s| >= 5 && s[..5] == ".json" {
      RemoveAllAround(s[5..], t);
      PatternDropped(s, t);
    } else {
      RemoveAllAround(s[1..], t);
      HeadKeptAround(s, t);
    }
  }

  /** An inserted ".json" at the front is removed. */
  lemma InsertedAtFront(t: string)
    ensures RemoveAll([] + ".json" + t, ".json") == RemoveAll([], ".json") + RemoveAll(t, ".json")
  {
    var u := [] + ".json" + t;
    assert u[..5] == ".json" && u[5..] == t;
  }

  /**
   * A ".json" at the front of `s` is removed whether or not another ".json"
   * follows, so the split for `s[5..]` carries over to `s`.
   */
  lemma PatternDropped(s: string, t: string)
    requires |s| >= 5 && s[..5] == ".json"
    requires RemoveAll(s[5..] + ".json" + t, ".json") == RemoveAll(s[5..], ".json") + RemoveAll(t, ".json")
    ensures RemoveAll(s + ".json" + t, ".json") == RemoveAll(s, ".json") + RemoveAll(t, ".json")
  {
    PatternAround(s, t);
    DropAtFront(s + ".json" + t);
    DropAtFront(s);
  }

  /**
   * Nor does `s + ".json" + t` start with ".json" when `s` does not (a
   * shorter `s` would put the inserted '.' where ".json" has a letter), so
   * the split for `s[1..]` carries over to `s`.
   */
  lemma HeadKeptAround(s: string, t: string)
    requires s != [] && !(|s| >= 5 && s[..5] == ".json")
    requires RemoveAll(s[1..] + ".json" + t, ".json") == RemoveAll(s[1..], ".json") + RemoveAll(t, ".json")
    ensures RemoveAll(s + ".json" + t, ".json") == RemoveAll(s, ".json") + RemoveAll(t, ".json")
  {
    var u := s + ".json" + t;
    NoPatternAround(s, t);
    KeepAtFront(u);
    HeadKept(s);
    ConsAssociates(s[0], RemoveAll(s[1..], ".json"), RemoveAll(t, ".json"));
  }

  lemma ConsAssociates(c: char, a: string, b: string)
    ensures [c] + (a + b) == ([c] + a) + b
  {
  }

  /** `replace` unfolded once at a ".json". */
  lemma DropAtFront(u: string)
    requires |u| >= 5 && u[..5] == ".json"
    ensures RemoveAll(u, ".json") == RemoveAll(u[5..], ".json")
  {
  }

  /** `replace` unfolded once where no ".json" starts. */
  lemma KeepAtFront(u: string)
    requires |u| >= 5 && u[..5] != ".json"
    ensures RemoveAll(u, ".json") == [u[0]] + RemoveAll(u[1..], ".json")
  {
  }

  /** A string that does not start with ".json" keeps its first character. */
  lemma HeadKept(s: string)
    requires s != [] && !(|s| >= 5 && s[..5] == ".json")
    ensures RemoveAll(s, ".json") == [s[0]] + RemoveAll(s[1..], ".json")
  {
    if |s| < 5 {
      assert RemoveAll(s[1..], ".json") == s[1..];
      assert s == [s[0]] + s[1..];
    } else {
      KeepAtFront(s);
    }
  }

  /** The sequence facts behind `PatternDropped`. */
  lemma PatternAround(s: string, t: string)
    requires |s| >= 5 && s[..5] == ".json"
    ensures (s + ".json" + t)[..5] == ".json"
    ensures (s + ".json" + t)[5..] == s[5..] + ".json" + t
  {
  }

  /** The sequence facts behind `HeadKeptAround`. */
  lemma NoPatternAround(s: string, t: string)
    requires s != [] && !(|s| >= 5 && s[..5] == ".json")
    ensures |s + ".json" + t| >= 5 && (s + ".json" + t)[..5] != ".json"
    ensures (s + ".json" + t)[0] == s[0]
    ensures (s + ".json" + t)[1..] == s[1..] + ".json" + t
  {
    var pat := ".json";
    var u := s + pat + t;
    if |s| >= |pat| {
      assert u[..|pat|] == s[..|pat|];
    } else {
      assert u[|s|] == '.' && pat[|s|] != '.';
    }
  }

  /**
   * Appending ".json" to a string free of it and then removing every
   * occurrence gives the string back.
   */
  lemma RemoveAllAppended(s: string)
    requires !Occurs(".json", s)
    ensures RemoveAll(s + ".json", ".json") == s
  {
    RemoveAllAround(s, []);
    assert s + ".json" + [] == s + ".json";
    assert RemoveAll([], ".json") == [];
  }

  /** `c.lower()` for ASCII letters; every other character is unchanged. */
  function LowerChar(c: char): (r: char)
    ensures 'A' <= c <= 'Z' ==> 'a' <= r <= 'z'
    ensures !('A' <= c <= 'Z') ==> r == c
  {
    if 'A' <= c <= 'Z' then (c as int + 32) as char else c
  }

  /** `s.lower()`, restricted to ASCII. */
  function Lower(s: string): (r: string)
    ensures |r| == |s|
    ensures forall i :: 0 <= i < |s| ==> r[i] == LowerChar(s[i])
  {
    seq(|s|, i requires 0 <= i < |s| => LowerChar(s[i]))
  }

  predicate IsAlnumChar(c: char)
  {
    'a' <= c <= 'z' || 'A' <= c <= 'Z' || '0' <= c <= '9'
  }

  /** `s.isalnum()`: false on the empty string, restricted to ASCII. */
  predicate IsAlnum(s: string)
  {
    |s| > 0 && forall i :: 0 <= i < |s| ==> IsAlnumChar(s[i])
  }

  /** Python's `a < b` on strings: lexicographic by code point. */
  predicate Less(a: string, b: string)
    decreases |a|
  {
    if a == [] then b != []
    else b != [] && (a[0] < b[0] || (a[0] == b[0] && Less(a[1..], b[1..])))
  }

  lemma {:induction false} LessIrreflexive(a: string)
    ensures !Less(a, a)
    decreases |a|
  {
    if a != [] {
      LessIrreflexive(a[1..]);
    }
  }

  lemma {:induction false} LessAsymmetric(a: string, b: string)
    requires Less(a, b)
    ensures !Less(b, a)
    decreases |a|
  {
    if a != [] && a[0] == b[0] {
      LessAsymmetric(a[1..], b[1..]);
    }
  }

  lemma {:induction false} LessTransitive(a: string, b: string, c: string)
    requires Less(a, b) && Less(b, c)
    ensures Less(a, c)
    decreases |a|
  {
    if a != [] && a[0] == b[0] && b[0] == c[0] {
      LessTransitive(a[1..], b[1..], c[1..]);
    }
  }

  lemma {:induction false} LessTotal(a: string, b: string)
    ensures a == b || Less(a, b) || Less(b, a)
    decreases |a|
  {
    if a != [] && b != [] && a[0] == b[0] {
      LessTotal(a[1..], b[1..]);
      if a[1..] == b[1..] {
        assert a == [a[0]] + a[1..] && b == [b[0]] + b[1..];
      }
    }
  }

  /** "Not greater" (`<=` on strings) is transitive. */
  lemma AtMostTransitive(a: string, b: string, c: string)
    requires !Less(b, a) && !Less(c, b)
    ensures !Less(c, a)
  {
    LessTotal(a, b);
    LessTotal(b, c);
    if a != b && b != c {
      LessTransitive(a, b, c);
      LessAsymmetric(a, c);
    }
  }
}
